=== FILE: README.md ===
# books-downloader: page discovery

`downloader.py` downloads a flip-book from AnyFlip or FlipHtml5 as a list of page images. This
project models the part of it that works out what to download:

- Which platform a URL belongs to (`supported_url`). A wrapper page's `<iframe>`s are scanned
  for a supported address when the URL itself is not supported (`find_iframe`).
- The host dispatch at the top of `download_config_js`.
- The two regular-expression scanners over the book's configuration script: the title
  (`get_book_title`) and the page count (`get_book_count`).
- The extraction of page filenames from the decoded configuration (`get_page_file_names`).
- The page-URL list that `prepare_download` builds.
- The `{i:04d}{ext}` file names that `download_images` writes into the download folder.

The modules follow that structure:

- `Text`: Python's `str.isspace`, ASCII digits, the `in` substring test, and string order.
- `Numerals`: `str(n)`, `int()` and `f"{n:04d}"`.
- `Platform`: URL classification, the frame scan and the host dispatch.
- `Config`: the title and count scanners, as leftmost `re.search` matches.
- `Pages`: decoded JSON values with Python's subscripting and iteration rules, the filename
  loop, and the page paths.
- `Discovery`: the whole `prepare_download` run.
- `Download`: the download loop over a folder.

Some parts of a run are not computed by the model. Each becomes a field of `Discovery.World`:

- the HTTP responses
- the HTML parser's list of frame `src` attributes
- `urlparse(...).netloc`
- the configuration fetch
- the stripping of `var htmlConfig =` followed by `json.loads`
- `urljoin`
- `str()` of non-string JSON values

The extension `os.path.splitext(url)[1]` is a parameter of `Download`.

Behaviour of the code that is easy to misread:

- When filenames were extracted, the URL list has one entry per filename, whatever the page count
  says. The count is only used when no filename was extracted.
- An unsupported URL whose page has an `<iframe>` without `src` does not end with an empty
  result: `'fliphtml5.com' in None` raises `TypeError`. The model reports this as
  `Failure(MissingFrameSource)`.
- `supported_url` tests the whole URL text. The host dispatch tests only the network location.
  So a supported URL can still have no configuration ("Book Not Found").
- `download_images` numbers the files from `0000`, while the fallback page URLs count from
  `1.jpg`.

## Model

| member | source | states |
|---|---|---|
| Text.Contains | downloader.py:55 | Python's `sub in s` is true exactly when `sub` occurs at some index of `s` |
| Platform.SupportedUrl | downloader.py:54-58 | true exactly when the URL text contains `fliphtml5.com` or `anyflip.com` anywhere |
| Platform.FindIframe | downloader.py:44-52 | fails exactly when some iframe has no `src`; otherwise the working URL is the last supported `src` in document order, or the original URL when no `src` is supported |
| Platform.WorkingUrl | downloader.py:60-62 | a supported URL is kept without looking at frames; an unsupported one fails exactly when a frame lacks `src`, and otherwise becomes the last supported frame `src`, or stays as it is when no frame is supported |
| Platform.ConfigHost | downloader.py:63-73 | the network location selects AnyFlip iff it contains `anyflip.com`, FlipHtml5 iff it contains `fliphtml5.com` but not `anyflip.com`, and no host otherwise |
| Config.TitleAt | downloader.py:78 | the title pattern tried at one index yields `t` exactly when the pattern matches there with `t` as its group |
| Config.CountAt | downloader.py:82 | the count pattern tried at one index yields a number exactly when the pattern matches there, and the number is the value of the greedy digit run |
| Config.BookTitle | downloader.py:77-79 | `None` exactly when the title pattern matches nowhere; otherwise the group of the leftmost match, which holds no quote |
| Config.BookCount | downloader.py:81-83 | 0 when the count pattern matches nowhere; otherwise the decimal value of the digits of the leftmost match |
| Config.TitleFoundAt | downloader.py:78-79 | a title match with no earlier quote followed by `t` is the title reported |
| Config.CountFoundAt | downloader.py:82-83 | a count match with no earlier quote followed by `p` gives the count reported |
| Numerals.Value | downloader.py:83 | `int()` of a digit string read from `m` digits is below 10^m, so leading digits bound the number read |
| Config.SampleCount | downloader.py:81-83 | the text `{"pageCount":5}` gives page count 5 |
| Numerals.Decimal | downloader.py:112 | `str(n)` is a non-empty digit string whose value is `n` and which starts with `0` only for 0 |
| Numerals.Pad4 | downloader.py:136 | `f"{n:04d}"` is a digit string whose value is `n`, at least four long, exactly four long iff `n < 10000`, and with no leading zero when longer than four |
| Numerals.ValueOrderIsLexOrder | downloader.py:136 | for digit strings of equal length, a smaller value means an earlier string in string order |
| Pages.Member | downloader.py:93 | `v[key]` answers exactly when `v` is a dict holding `key`, and then with a value stored under `key` |
| Pages.First | downloader.py:96 | `v[0]` is the first item of a non-empty list or the first character of a non-empty string, and raises for anything else |
| Pages.Elements | downloader.py:95 | `for x in v` yields a list's items, a dict's keys or a string's characters; a scalar is not iterable |
| Pages.PageName | downloader.py:96 | `page['n'][0]` answers only for a dict record; the answer is the first item of a non-empty list `n` or the first character of a non-empty string `n`, and there is none when `n` is missing or anything else |
| Pages.CollectNames | downloader.py:95-98 | the names are those of a prefix of the records, one per record, in order; the first record left out is one whose `['n'][0]` raises |
| Pages.FileNames | downloader.py:85-99 | no names when decoding fails; when `fliphtml5_pages` is a list, the names are those of its longest prefix of well-formed records; names come only from such a list |
| Pages.BrokenRecordEndsNames | downloader.py:95-98 | a record without `n` ends the names; later records are not read; a string `n` contributes its first character |
| Pages.Render | downloader.py:110 | the `{x}` substitution: a string name is itself, any other value its `str()` |
| Pages.PagePaths | downloader.py:109-113 | one `files/large/` path per extracted name, holding that name; with no names, `count` paths whose file parts read back as page numbers 1 to `count` followed by `.jpg` |
| Pages.FallbackPathsDistinct | downloader.py:112-113 | the numbered fallback paths are pairwise different |
| Pages.NamesOverrideCount | downloader.py:109-110 | when names were extracted, the page count does not affect the paths |
| Discovery.DownloadConfig | downloader.py:60-75 | fails exactly when the frame scan fails; otherwise it returns the working URL, and its configuration text is missing exactly when that URL's host is neither platform, and is otherwise the text fetched for that host and URL |
| Discovery.BuildBook | downloader.py:101-117 | an empty or missing configuration gives the initial fields and no URLs; otherwise title and count come from the scanners, and the URLs join the book URL with `files/large/` plus each name, or with `files/large/` plus `1.jpg` to `<count>.jpg` |
| Discovery.PrepareDownload | downloader.py:101-117 | fails exactly when the URL is unsupported and some frame lacks `src`; a supported URL is used as given; a host that is neither platform yields "Book Not Found"; a platform host yields the book built from the text fetched for it; the book is resolved against the working URL the frame scan adopted |
| Discovery.SupportedUrlSkipsFrameScan | downloader.py:61-62 | for a supported URL, the frames of its page make no difference to the run |
| Discovery.FrameFollowedOnce | downloader.py:44-52 | restarting discovery from an adopted supported frame URL gives the same book |
| Discovery.NoSupportedFrameIsNotFound | downloader.py:60-73 | an unsupported URL whose page frames all have a `src`, none supported, ends as "Book Not Found" at the URL itself, when its network location is part of its text |
| Discovery.SampleConfigHasFivePages | downloader.py:108-113 | a configuration that reports five pages and has no page list gives no filenames, so its page URLs are exactly `files/large/1.jpg` to `files/large/5.jpg` joined to the book URL |
| Discovery.ListedFileNamesWin | downloader.py:108-110 | a configuration that lists `a.jpg` and `b.jpg` gives exactly those two page URLs, in order |
| Download.WriteFiles | downloader.py:137-140 | after writing each content to its name, the folder holds its old files plus every name written; a name holds the content of its last write; names never written keep their old content |
| Download.FileName | downloader.py:136 | `f"{i:04d}{extension}"`: leading digits that read back as `i`, exactly four of them below 10000 and without a leading zero beyond that, then the extension |
| Download.DownloadImages | downloader.py:134-140 | the folder ends with its old files plus one file per page name; a page's file holds that page when no later page shares its name; files no page writes are unchanged |
| Download.FileNamePrefix | downloader.py:136 | below 10000, a file name starts with four digits that read back as the page index |
| Download.FileNamesDistinct | downloader.py:134-140 | with at most 10000 pages, no two pages share a file, so every page survives |
| Download.ExtensionsKeepFilesApart | downloader.py:134-140 | when every extension is empty or starts with `.`, as `os.path.splitext` gives it, no two pages share a file, for any number of pages |
| Download.FileNamesSortInPageOrder | downloader.py:134-136 | with at most 10000 pages, file name `i` sorts before file name `j` exactly when `i < j` |
| Download.OrderBreaksAtTenThousand | downloader.py:136 | page 10000's name sorts before page 9999's, so the 10000-page bound is tight |

## Left out

- HTTP (`get_response`, downloader.py:28-35) and HTML parsing (`get_soup`, downloader.py:22-23)
  are not modelled. The list of frame `src` values and the configuration text are inputs
  (`Discovery.World`).
- Building the configuration URL from the URL path with `urljoin` and `str.replace`
  (downloader.py:63-71) is not modelled. The fetched text depends only on the host and the
  working URL.
- Stripping `var htmlConfig =` and `;` and `json.loads` (downloader.py:90-92) stay abstract as
  `World.decode`. A parse error is `None`.
- `urljoin` (downloader.py:110-112) and `os.path.splitext` (downloader.py:135) stay abstract.
  `str()` of a non-string JSON value stays abstract too, since it covers Python's float and
  number formatting.
- `World.decode` is taken to give dicts with distinct keys, as a Python dict has. For a
  repeated key `Pages.MemberIn` answers the first value, where `json.loads` keeps the last.
  Numbers are kept as their literal text.
- Config.BookCount: `int()` on a run of more than 4300 digits raises `ValueError` in CPython
  (its default limit on integer string conversion), and nothing in `prepare_download` catches
  it; the model reads a run of any length. It also inherits the digit reading of
  `Config.CountAt`.
- Config.CountAt: `\d` is taken as the ASCII digits only, while Python's `\d` on `str`
  patterns matches other Unicode decimal digits, which `int()` reads.
- Directory creation and the progress bar of `download_images` (downloader.py:120-132, 141-143)
  are not modelled. Each file's content is represented by the URL it was fetched from: the
  folder is a map from file name to that URL.
- Discovery.NoSupportedFrameIsNotFound: it requires the network location to be a slice of the
  URL text. `World.netloc` is otherwise unconstrained because `urlsplit` deletes tab, CR and LF
  characters, so a location can name a platform that `supported_url` did not find in the text.
- `print_info` and `time_now` (downloader.py:25-26, 37-41) are left out because they only
  produce log output.
- `create_pdf` (downloader.py:146-168) is left out. It is an image and PDF library operation,
  and `main` calls it with arguments that do not match its signature.
- The command-line handling and folder removal of `main` (downloader.py:170-194) are left out.
- A sample title text is not included. `Config.TitleFoundAt` states the general fact.

=== FILE: config.dfy ===
/** The two pattern searches over the configuration text: `get_book_title` searches
    `"title"\s*:\s*"([^"]*)"` and `get_book_count` searches `"pageCount"\s*:\s*(\d+)`,
    both with `re.search`, which reports the leftmost position where the pattern matches. */
module Config {
  import opened Wrappers
  import opened Text
  import opened Numerals

  const TitleKey: string := "\"title\""
  const CountKey: string := "\"pageCount\""

  predicate NotQuote(c: char) { c != '"' }

  /** From index `i`, `s` reads `key`, optional whitespace, a colon at `colon`, optional
      whitespace, and then the value part of the pattern starts at `v`. */
  ghost predicate KeyAt(s: string, i: nat, key: string, colon: nat, v: nat) {
    && i + |key| <= colon < v <= |s|
    && s[i..i + |key|] == key
    && AllFrom(s, i + |key|, colon, IsSpace)
    && s[colon] == ':'
    && AllFrom(s, colon + 1, v, IsSpace)
  }

  /** The title pattern matches at `i` with `t` as its group: a quoted run without quotes. */
  ghost predicate TitleMatch(s: string, i: nat, t: string) {
    && (forall k :: 0 <= k < |t| ==> t[k] != '"')
    && exists colon: nat, v: nat, close: nat ::
         && KeyAt(s, i, TitleKey, colon, v)
         && v < close < |s|
         && s[v] == '"' && s[close] == '"'
         && t == s[v + 1..close]
  }

  /** The count pattern matches at `i` with `d` as its group. `\d+` is greedy and nothing
      follows it in the pattern, so the group is the whole run of digits. */
  ghost predicate CountMatch(s: string, i: nat, d: string) {
    && |d| > 0 && AllDigits(d)
    && exists colon: nat, v: nat, end: nat ::
         && KeyAt(s, i, CountKey, colon, v)
         && v < end <= |s|
         && d == s[v..end]
         && (end == |s| || !IsDigit(s[end]))
  }

  /** Where the value part starts if `key`, whitespace, `:`, whitespace can be read at `i`;
      the greedy `\s*` runs are the longest ones. */
  function ValueStart(s: string, i: nat, key: string): (r: Option<nat>)
    ensures r.Some? ==> exists colon: nat :: KeyAt(s, i, key, colon, r.value)
    ensures r.Some? ==> r.value == |s| || !IsSpace(s[r.value])
  {
    if i + |key| <= |s| && s[i..i + |key|] == key then
      var colon := Span(s, i + |key|, IsSpace);
      if colon < |s| && s[colon] == ':' then
        var v := Span(s, colon + 1, IsSpace);
        assert KeyAt(s, i, key, colon, v);
        Some(v)
      else None
    else None
  }

  /** A value part that does not start with whitespace is the one `ValueStart` finds. */
  lemma ValueStartComplete(s: string, i: nat, key: string, colon: nat, v: nat)
    requires KeyAt(s, i, key, colon, v)
    requires v == |s| || !IsSpace(s[v])
    ensures ValueStart(s, i, key) == Some(v)
  {
    SpanUnique(s, i + |key|, colon, IsSpace);
    SpanUnique(s, colon + 1, v, IsSpace);
  }

  /** A title match at `i` is the one found by reading the key, the longest whitespace runs
      and the shortest quoted run. */
  lemma TitleMatchFound(s: string, i: nat, t: string) returns (v: nat, close: nat)
    requires TitleMatch(s, i, t)
    ensures ValueStart(s, i, TitleKey) == Some(v)
    ensures v < |s| && s[v] == '"'
    ensures Span(s, v + 1, NotQuote) == close && close < |s| && t == s[v + 1..close]
  {
    var colon;
    colon, v, close := TitleMatchParts(s, i, t);
    ValueStartComplete(s, i, TitleKey, colon, v);
    assert AllFrom(s, v + 1, close, NotQuote) by {
      forall k | v + 1 <= k < close ensures NotQuote(s[k]) {
        assert s[k] == t[k - v - 1];
      }
    }
    SpanUnique(s, v + 1, close, NotQuote);
  }

  /** The positions a title match is made of. */
  lemma TitleMatchParts(s: string, i: nat, t: string) returns (colon: nat, v: nat, close: nat)
    requires TitleMatch(s, i, t)
    ensures KeyAt(s, i, TitleKey, colon, v) && v < close < |s|
    ensures s[v] == '"' && s[close] == '"' && t == s[v + 1..close]
    ensures forall k :: 0 <= k < |t| ==> t[k] != '"'
  {
    colon, v, close :| KeyAt(s, i, TitleKey, colon, v) && v < close < |s|
      && s[v] == '"' && s[close] == '"' && t == s[v + 1..close];
  }

  /** A count match at `i` is the one found by reading the key, the longest whitespace runs
      and the longest digit run. */
  lemma CountMatchFound(s: string, i: nat, d: string) returns (v: nat, e: nat)
    requires CountMatch(s, i, d)
    ensures ValueStart(s, i, CountKey) == Some(v)
    ensures Span(s, v, IsDigit) == e && v < e <= |s| && d == s[v..e]
  {
    var colon;
    colon, v, e := CountMatchParts(s, i, d);
    DigitRun(s, v, e, d);
    ValueStartComplete(s, i, CountKey, colon, v);
  }

  /** The positions a count match is made of. */
  lemma CountMatchParts(s: string, i: nat, d: string) returns (colon: nat, v: nat, e: nat)
    requires CountMatch(s, i, d)
    ensures KeyAt(s, i, CountKey, colon, v) && v < e <= |s| && e - v == |d|
    ensures d == s[v..e] && AllDigits(d) && (e == |s| || !IsDigit(s[e]))
  {
    colon, v, e :| KeyAt(s, i, CountKey, colon, v) && v < e <= |s|
      && d == s[v..e] && (e == |s| || !IsDigit(s[e]));
  }

  /** A slice holding only digits and followed by a non-digit is the digit run `Span` finds. */
  lemma DigitRun(s: string, v: nat, e: nat, d: string)
    requires v < e <= |s| && d == s[v..e] && AllDigits(d)
    requires e == |s| || !IsDigit(s[e])
    ensures !IsSpace(s[v])
    ensures Span(s, v, IsDigit) == e
  {
    assert AllFrom(s, v, e, IsDigit) by {
      forall k | v <= k < e ensures IsDigit(s[k]) {
        assert s[k] == d[k - v];
      }
    }
    SpanUnique(s, v, e, IsDigit);
  }

  /** The title pattern tried at index `i` alone. */
  function TitleAt(s: string, i: nat): (r: Option<string>)
    ensures forall t :: r == Some(t) <==> TitleMatch(s, i, t)
  {
    assert forall t :: TitleMatch(s, i, t) ==> TitleAtValue(s, i) == Some(t) by {
      forall t | TitleMatch(s, i, t) ensures TitleAtValue(s, i) == Some(t) {
        var v, close := TitleMatchFound(s, i, t);
      }
    }
    TitleAtValue(s, i)
  }

  /** The reading `TitleAt` performs: key, whitespace, colon, whitespace, quoted run. */
  function TitleAtValue(s: string, i: nat): (r: Option<string>)
    ensures r.Some? ==> TitleMatch(s, i, r.value)
  {
    match ValueStart(s, i, TitleKey)
    case None => None
    case Some(v) =>
      if v < |s| && s[v] == '"' then
        var close := Span(s, v + 1, NotQuote);
        if close < |s| then
          var t := s[v + 1..close];
          assert forall k :: 0 <= k < |t| ==> t[k] != '"' by {
            forall k | 0 <= k < |t| ensures t[k] != '"' {
              assert t[k] == s[v + 1 + k];
            }
          }
          assert TitleMatch(s, i, t) by {
            var colon: nat :| KeyAt(s, i, TitleKey, colon, v);
            assert KeyAt(s, i, TitleKey, colon, v) && v < close < |s| && s[v] == '"' && s[close] == '"' && t == s[v + 1..close];
          }
          Some(t)
        else None
      else None
  }

  /** The count pattern tried at index `i` alone. */
  function CountAt(s: string, i: nat): (r: Option<nat>)
    ensures r.Some? ==> exists d :: CountMatch(s, i, d) && Value(d) == r.value
    ensures r.None? ==> forall d :: !CountMatch(s, i, d)
    ensures forall d :: CountMatch(s, i, d) ==> r == Some(Value(d))
  {
    assert forall d :: CountMatch(s, i, d) ==> CountAtValue(s, i) == Some(Value(d)) by {
      forall d | CountMatch(s, i, d) ensures CountAtValue(s, i) == Some(Value(d)) {
        var v, e := CountMatchFound(s, i, d);
      }
    }
    CountAtValue(s, i)
  }

  /** The reading `CountAt` performs: key, whitespace, colon, whitespace, digit run. */
  function CountAtValue(s: string, i: nat): (r: Option<nat>)
    ensures r.Some? ==> exists d :: CountMatch(s, i, d) && Value(d) == r.value
  {
    match ValueStart(s, i, CountKey)
    case None => None
    case Some(v) =>
      var e := Span(s, v, IsDigit);
      if e > v then
        var d := s[v..e];
        assert AllDigits(d) by {
          forall k | 0 <= k < |d| ensures IsDigit(d[k]) {
            assert d[k] == s[v + k];
          }
        }
        assert CountMatch(s, i, d) by {
          var colon: nat :| KeyAt(s, i, CountKey, colon, v);
          assert KeyAt(s, i, CountKey, colon, v) && v < e <= |s| && d == s[v..e];
        }
        Some(Value(d))
      else None
  }

  /** The title pattern matches nowhere in `[lo, hi)`. */
  ghost predicate NoTitleBetween(s: string, lo: nat, hi: nat) {
    forall j, t :: lo <= j < hi ==> !TitleMatch(s, j, t)
  }

  /** The count pattern matches nowhere in `[lo, hi)`. */
  ghost predicate NoCountBetween(s: string, lo: nat, hi: nat) {
    forall j, d :: lo <= j < hi ==> !CountMatch(s, j, d)
  }

  /** The title pattern matches at `j` with group `t`, and at no earlier position. */
  ghost predicate LeftmostTitle(s: string, j: nat, t: string) {
    TitleMatch(s, j, t) && NoTitleBetween(s, 0, j)
  }

  /** The count pattern matches at `j` with group `d`, and at no earlier position. */
  ghost predicate LeftmostCount(s: string, j: nat, d: string) {
    CountMatch(s, j, d) && NoCountBetween(s, 0, j)
  }

  /** `re.search` for the title pattern from index `i` on. */
  function FirstTitle(s: string, i: nat): (r: Option<string>)
    requires i <= |s|
    ensures r.Some? ==> exists j :: i <= j && TitleMatch(s, j, r.value) && NoTitleBetween(s, i, j)
    ensures r.None? ==> forall j, t :: i <= j ==> !TitleMatch(s, j, t)
    decreases |s| - i
  {
    match TitleAt(s, i)
    case Some(t) => Some(t)
    case None =>
      if i == |s| then None
      else FirstTitle(s, i + 1)
  }

  /** `re.search` for the count pattern from index `i` on. */
  function FirstCount(s: string, i: nat): (r: Option<nat>)
    requires i <= |s|
    ensures r.Some? ==> exists j, d :: i <= j && CountMatch(s, j, d) && Value(d) == r.value
                                       && NoCountBetween(s, i, j)
    ensures r.None? ==> forall j, d :: i <= j ==> !CountMatch(s, j, d)
    decreases |s| - i
  {
    match CountAt(s, i)
    case Some(n) => Some(n)
    case None =>
      if i == |s| then None
      else FirstCount(s, i + 1)
  }

  /** `get_book_title`: the group of the leftmost match of the title pattern, `None` when the
      pattern matches nowhere. The title never holds a quote character. */
  function BookTitle(config: string): (r: Option<string>)
    ensures r.None? <==> forall j, t :: !TitleMatch(config, j, t)
    ensures r.Some? ==> exists j :: LeftmostTitle(config, j, r.value)
    ensures r.Some? ==> forall k :: 0 <= k < |r.value| ==> r.value[k] != '"'
  {
    var r := FirstTitle(config, 0);
    assert r.Some? ==> exists j :: LeftmostTitle(config, j, r.value) by {
      if r.Some? {
        var j :| 0 <= j && TitleMatch(config, j, r.value) && NoTitleBetween(config, 0, j);
        assert LeftmostTitle(config, j, r.value);
      }
    }
    r
  }

  /** `get_book_count`: `int()` of the digits of the leftmost match of the count pattern,
      0 when the pattern matches nowhere. */
  function BookCount(config: string): (r: nat)
    ensures (forall j, d :: !CountMatch(config, j, d)) ==> r == 0
    ensures (exists j, d :: CountMatch(config, j, d)) ==>
              exists j, d :: LeftmostCount(config, j, d) && Value(d) == r
  {
    var r := FirstCount(config, 0);
    assert r.Some? ==> exists j, d :: LeftmostCount(config, j, d) && Value(d) == r.value by {
      if r.Some? {
        var j, d :| 0 <= j && CountMatch(config, j, d) && Value(d) == r.value && NoCountBetween(config, 0, j);
        assert LeftmostCount(config, j, d);
      }
    }
    if r.Some? then r.value else 0
  }

  /** Every title match starts with the quoted key. */
  lemma TitleMatchStarts(s: string, j: nat, t: string)
    requires TitleMatch(s, j, t)
    ensures j + 1 < |s| && s[j] == '"' && s[j + 1] == 't'
  {
    var colon: nat, v: nat, close: nat :| KeyAt(s, j, TitleKey, colon, v) && v < close < |s|
      && s[v] == '"' && s[close] == '"' && t == s[v + 1..close];
    assert s[j..j + |TitleKey|] == TitleKey;
    assert s[j] == s[j..j + |TitleKey|][0] && s[j + 1] == s[j..j + |TitleKey|][1];
  }

  /** Every count match starts with the quoted key. */
  lemma CountMatchStarts(s: string, j: nat, d: string)
    requires CountMatch(s, j, d)
    ensures j + 1 < |s| && s[j] == '"' && s[j + 1] == 'p'
  {
    var colon: nat, v: nat, e: nat :| KeyAt(s, j, CountKey, colon, v) && v < e <= |s|
      && d == s[v..e] && (e == |s| || !IsDigit(s[e]));
    assert s[j..j + |CountKey|] == CountKey;
    assert s[j] == s[j..j + |CountKey|][0] && s[j + 1] == s[j..j + |CountKey|][1];
  }

  /** A title match at `p` is the one `get_book_title` reports when no quote before `p` is
      followed by a `t`: no earlier position can start the key. */
  lemma TitleFoundAt(s: string, p: nat, t: string)
    requires TitleMatch(s, p, t)
    requires forall j :: 0 <= j < p ==> s[j] != '"' || s[j + 1] != 't'
    ensures BookTitle(s) == Some(t)
  {
    var r := BookTitle(s);
    assert r.Some?;
    var j :| LeftmostTitle(s, j, r.value);
    TitleMatchStarts(s, j, r.value);
    assert j == p;
    assert TitleAt(s, p) == Some(r.value);
  }

  /** A count match at `p` is the one `get_book_count` reports when no quote before `p` is
      followed by a `p`: no earlier position can start the key. */
  lemma CountFoundAt(s: string, p: nat, d: string)
    requires CountMatch(s, p, d)
    requires forall j :: 0 <= j < p ==> s[j] != '"' || s[j + 1] != 'p'
    ensures BookCount(s) == Value(d)
  {
    var r := BookCount(s);
    assert exists j, d :: CountMatch(s, j, d) by {
      assert CountMatch(s, p, d);
    }
    assert exists j, d :: LeftmostCount(s, j, d) && Value(d) == r;
    var j, d' :| LeftmostCount(s, j, d') && Value(d') == r;
    CountMatchStarts(s, j, d');
    assert j == p;
    assert CountAt(s, p) == Some(Value(d)) && CountAt(s, p) == Some(Value(d'));
  }

  /** The configuration text of a five-page book. */
  const SampleConfig: string := "{" + CountKey + ":5}"

  /** The count scanner on the five-page sample. */
  lemma SampleCount()
    ensures BookCount(SampleConfig) == 5
  {
    var s := SampleConfig;
    assert s[1..12] == CountKey;
    assert s[12] == ':' && s[13..14] == "5" && s[14] == '}';
    assert KeyAt(s, 1, CountKey, 12, 13);
    assert CountMatch(s, 1, "5");
    CountFoundAt(s, 1, "5");
  }
}

=== FILE: discovery.dfy ===
/** The whole page-discovery run of `prepare_download`: resolve the platform, fetch the
    configuration, build the book. */
module Discovery {
  import opened Wrappers
  import Text
  import opened Numerals
  import opened Platform
  import opened Config
  import opened Pages

  /** What a run depends on that the model does not compute: the pages and configuration texts
      it fetches, the HTML and JSON parsers, and the standard library's URL handling. */
  datatype World = World(
    // the `src` attribute of each `<iframe>` on the page at a URL, in document order
    frameSources: string -> seq<Option<string>>,
    // `urlparse(url).netloc`
    netloc: string -> string,
    // the text of the configuration script of a book on a host, fetched from the working URL
    configText: (Host, string) -> string,
    // strip `var htmlConfig =` and the final `;`, then `json.loads`; `None` where that raises
    decode: string -> Option<Json>,
    // `urljoin(base, relative)`
    join: (string, string) -> string,
    // `str()` of a decoded value that is not a string
    show: Json -> string)

  /** What `prepare_download` leaves in the downloader's fields, and the list it returns. */
  datatype Book = Book(url: string, title: Option<string>, pageCount: nat, pageUrls: seq<string>)

  /** `download_config_js`: the working URL, and the configuration text of its host, or `None`
      when the host part of the working URL names neither platform. */
  function DownloadConfig(url: string, world: World): (r: Result<(string, Option<string>), Fault>)
    ensures r.Failure? <==> WorkingUrl(url, world.frameSources(url)).Failure?
    ensures r.Success? ==> r.value.0 == WorkingUrl(url, world.frameSources(url)).value
    ensures r.Success? ==> (r.value.1.None? <==> ConfigHost(world.netloc(r.value.0)).None?)
    ensures r.Success? && r.value.1.Some? ==>
              r.value.1.value == world.configText(ConfigHost(world.netloc(r.value.0)).value, r.value.0)
  {
    match WorkingUrl(url, world.frameSources(url))
    case Failure(e) => Failure(e)
    case Success(w) =>
      match ConfigHost(world.netloc(w))
      case None => Success((w, None))
      case Some(host) => Success((w, Some(world.configText(host, w))))
  }

  /** The rest of `prepare_download`, once the configuration text is known. A missing or empty
      text is "Book Not Found": the fields keep their initial values and no URL is built.
      Otherwise the title and count are scanned from the text, and the page URLs are the
      extracted filenames under `files/large/`, or, when none were extracted, `1.jpg` up to
      the page count. */
  function BuildBook(url: string, config: Option<string>, world: World): (b: Book)
    ensures b.url == url
    ensures config.None? || config.value == "" ==> b == Book(url, Some(""), 0, [])
    ensures config.Some? && config.value != "" ==>
              b.title == BookTitle(config.value) && b.pageCount == BookCount(config.value)
    ensures config.Some? && config.value != "" ==>
              var names := FileNames(world.decode(config.value));
              |names| > 0 ==>
                && |b.pageUrls| == |names|
                && forall k :: 0 <= k < |names| ==>
                     b.pageUrls[k] == world.join(url, LargeDir + Render(names[k], world.show))
    ensures config.Some? && config.value != "" ==>
              var names := FileNames(world.decode(config.value));
              |names| == 0 ==>
                && |b.pageUrls| == BookCount(config.value)
                && forall k :: 0 <= k < |b.pageUrls| ==>
                     b.pageUrls[k] == world.join(url, LargeDir + Decimal(k + 1) + FallbackExt)
  {
    if config.Some? && config.value != "" then
      var text := config.value;
      var count := BookCount(text);
      var names := FileNames(world.decode(text));
      var paths := PagePaths(names, count, world.show);
      var urls := seq(|paths|, k requires 0 <= k < |paths| => world.join(url, paths[k]));
      assert |names| > 0 ==> |urls| == |names| && forall k :: 0 <= k < |names| ==>
               urls[k] == world.join(url, LargeDir + Render(names[k], world.show)) by {
        if |names| > 0 {
          NamedPathsSpelled(names, count, world.show);
        }
      }
      assert |names| == 0 ==> forall k :: 0 <= k < |urls| ==>
               urls[k] == world.join(url, LargeDir + Decimal(k + 1) + FallbackExt) by {
        if |names| == 0 {
          FallbackPathsSpelled(count, world.show);
        }
      }
      Book(url, BookTitle(text), count, urls)
    else
      Book(url, Some(""), 0, [])
  }

  /** `prepare_download`, with the frame scan and the configuration fetch it starts. */
  function PrepareDownload(url: string, world: World): (r: Result<Book, Fault>)
    ensures r.Failure? <==> !Supported(url) && exists k :: 0 <= k < |world.frameSources(url)| && world.frameSources(url)[k].None?
    ensures Supported(url) ==> r.Success? && r.value.url == url
    ensures r.Success? ==> r.value.url == WorkingUrl(url, world.frameSources(url)).value
    ensures r.Success? && ConfigHost(world.netloc(r.value.url)).None? ==> r.value == Book(r.value.url, Some(""), 0, [])
    ensures r.Success? && ConfigHost(world.netloc(r.value.url)).Some? ==>
              var host := ConfigHost(world.netloc(r.value.url)).value;
              r.value == BuildBook(r.value.url, Some(world.configText(host, r.value.url)), world)
  {
    match DownloadConfig(url, world)
    case Failure(e) => Failure(e)
    case Success((w, config)) => Success(BuildBook(w, config, world))
  }

  /** A URL that already names a platform is never sent through the frame scan: what its
      wrapper page would contain makes no difference to the run. */
  lemma SupportedUrlSkipsFrameScan(url: string, world: World, frames: string -> seq<Option<string>>)
    requires SupportedUrl(url)
    ensures PrepareDownload(url, world) == PrepareDownload(url, world.(frameSources := frames))
  {
    assert WorkingUrl(url, world.frameSources(url)) == WorkingUrl(url, frames(url));
  }

  /** A wrapper page whose frame points at a book is followed once: the book is then resolved
      against the frame's URL, and running discovery from that URL gives the same book. */
  lemma {:induction false} FrameFollowedOnce(url: string, world: World, w: string)
    requires PrepareDownload(url, world).Success?
    requires PrepareDownload(url, world).value.url == w
    requires SupportedUrl(w)
    ensures PrepareDownload(w, world) == PrepareDownload(url, world)
  {
    var frames := world.frameSources(url);
    assert WorkingUrl(url, frames) == Success(w);
    assert WorkingUrl(w, world.frameSources(w)) == Success(w);
  }

  /** An unsupported URL whose page frames all have a `src`, none of them supported, is
      "Book Not Found", provided its network location is part of its text. (Not every parser
      result is: `urlsplit` drops tab, CR and LF characters before splitting.) */
  lemma NoSupportedFrameIsNotFound(url: string, world: World)
    requires !SupportedUrl(url)
    requires forall k :: 0 <= k < |world.frameSources(url)| ==> world.frameSources(url)[k].Some?
    requires forall k :: 0 <= k < |world.frameSources(url)| ==> !SupportedFrame(world.frameSources(url), k)
    requires Text.HasSubstring(url, world.netloc(url))
    ensures PrepareDownload(url, world) == Success(Book(url, Some(""), 0, []))
  {
    var frames := world.frameSources(url);
    assert WorkingUrl(url, frames) == Success(url);
    var loc := world.netloc(url);
    if Text.HasSubstring(loc, AnyFlipDomain) {
      Text.SubstringOfSubstring(url, loc, AnyFlipDomain);
    }
    if Text.HasSubstring(loc, FlipHtml5Domain) {
      Text.SubstringOfSubstring(url, loc, FlipHtml5Domain);
    }
    assert ConfigHost(loc).None?;
  }

  /** The sample configuration of a five-page book, decoded to a dict without a page list,
      reports five pages and lists no filenames, so its pages are guessed as `1.jpg` to `5.jpg`. */
  lemma SampleConfigHasFivePages(url: string, world: World)
    requires world.decode(SampleConfig) == Some(Obj([("pageCount", Num("5"))]))
    ensures SampleConfig != "" && BookCount(SampleConfig) == 5
    ensures FileNames(world.decode(SampleConfig)) == []
    ensures var b := BuildBook(url, Some(SampleConfig), world);
      |b.pageUrls| == 5
      && forall k :: 0 <= k < 5 ==> b.pageUrls[k] == world.join(url, LargeDir + Decimal(k + 1) + FallbackExt)
  {
    SampleCount();
  }

  /** A configuration listing `a.jpg` and `b.jpg`: exactly those two pages, in that order,
      whatever page count the text reports. */
  lemma ListedFileNamesWin(url: string, text: string, world: World)
    requires text != ""
    requires world.decode(text) == Some(Obj([(PagesKey, Arr([
               Obj([(NameKey, Arr([Str("a.jpg")]))]),
               Obj([(NameKey, Arr([Str("b.jpg")]))]) ]))]))
    ensures BuildBook(url, Some(text), world).pageUrls ==
      [ world.join(url, LargeDir + "a.jpg"), world.join(url, LargeDir + "b.jpg") ]
  {
    ListedNames(world.decode(text));
    var b := BuildBook(url, Some(text), world);
    assert |b.pageUrls| == 2;
    assert b.pageUrls[0] == world.join(url, LargeDir + "a.jpg");
    assert b.pageUrls[1] == world.join(url, LargeDir + "b.jpg");
  }

  /** The two records of `ListedFileNamesWin` give the names `a.jpg` and `b.jpg`. */
  lemma ListedNames(decoded: Option<Json>)
    requires decoded == Some(Obj([(PagesKey, Arr([
               Obj([(NameKey, Arr([Str("a.jpg")]))]),
               Obj([(NameKey, Arr([Str("b.jpg")]))]) ]))]))
    ensures FileNames(decoded) == [Str("a.jpg"), Str("b.jpg")]
  {
    var pages := [Obj([(NameKey, Arr([Str("a.jpg")]))]), Obj([(NameKey, Arr([Str("b.jpg")]))])];
    assert Member(decoded.value, PagesKey) == Some(Arr(pages));
    assert PageName(pages[0]) == Some(Str("a.jpg"));
    assert PageName(pages[1]) == Some(Str("b.jpg"));
    assert pages[1..][1..] == [];
  }
}

=== FILE: download.dfy ===
/** `download_images`: every page URL is fetched into the download folder under a name made of
    its zero-padded index and the URL's extension, so that name order is page order. */
module Download {
  import opened Text
  import opened Numerals

  /** The file the page at index `i` is written to: `f"{i:04d}{extension}"`, where `ext` stands
      for `os.path.splitext(url)[1]`. */
  function FileName(i: nat, url: string, ext: string -> string): (name: string)
    ensures |name| >= 4 + |ext(url)|
    ensures i < 10000 ==> |name| == 4 + |ext(url)|
    ensures |name| > 4 + |ext(url)| ==> name[0] != '0'
    ensures var p := |name| - |ext(url)|;
      name[p..] == ext(url) && AllDigits(name[..p]) && Value(name[..p]) == i
  {
    var name := Pad4(i) + ext(url);
    assert name[..|Pad4(i)|] == Pad4(i) && name[|Pad4(i)|..] == ext(url);
    name
  }

  /** No later page is written to the same file as page `k`. */
  ghost predicate LastWriter(urls: seq<string>, ext: string -> string, k: int)
    requires 0 <= k < |urls|
  {
    LastWrite(PageFiles(urls, ext), k, |urls|)
  }

  /** No later write in `names` goes to the same file as write `k`. */
  ghost predicate LastWrite(names: seq<string>, k: int, hi: int)
    requires 0 <= k < hi <= |names|
  {
    forall j :: k < j < hi ==> names[j] != names[k]
  }

  /** Writing `contents[k]` to the file `names[k]` for each `k` in turn, over a folder that may
      already hold files. The folder maps each file name to what it holds; opening a file with
      `'wb'` replaces what it held. */
  method WriteFiles(names: seq<string>, contents: seq<string>, folder: map<string, string>)
    returns (written: map<string, string>)
    requires |names| == |contents|
    ensures forall name :: name in written <==> name in folder || name in names
    ensures forall k :: 0 <= k < |names| && LastWrite(names, k, |names|) ==> written[names[k]] == contents[k]
    ensures forall name :: name in folder && name !in names ==> written[name] == folder[name]
  {
    written := folder;
    var i := 0;
    while i < |names|
      invariant 0 <= i <= |names|
      invariant forall name :: name in written <==> name in folder || name in names[..i]
      invariant forall k :: 0 <= k < i && LastWrite(names, k, i) ==> written[names[k]] == contents[k]
      invariant forall name :: name in folder && name !in names[..i] ==> written[name] == folder[name]
    {
      assert names[..i + 1] == names[..i] + [names[i]];
      var before := written;
      written := written[names[i] := contents[i]];
      forall k | 0 <= k < i && LastWrite(names, k, i + 1) ensures written[names[k]] == contents[k] {
        assert names[i] != names[k];
        assert LastWrite(names, k, i);
      }
      i := i + 1;
    }
    assert names[..i] == names;
  }

  /** The download loop of `download_images`: page `k` of `urls` is fetched into the file
      `FileName(k, urls[k], ext)` of a folder that may already hold files
      (`makedirs(exist_ok=True)`). The folder maps each file name to the URL whose response
      content the file holds. */
  method DownloadImages(urls: seq<string>, folder: map<string, string>, ext: string -> string)
    returns (written: map<string, string>)
    ensures forall name :: name in written <==>
              name in folder || exists k :: 0 <= k < |urls| && name == FileName(k, urls[k], ext)
    ensures forall k :: 0 <= k < |urls| && LastWriter(urls, ext, k) ==>
              written[FileName(k, urls[k], ext)] == urls[k]
    ensures forall name :: name in folder && (forall k :: 0 <= k < |urls| ==> name != FileName(k, urls[k], ext)) ==>
              written[name] == folder[name]
  {
    written := WriteFiles(PageFiles(urls, ext), urls, folder);
    PageFilesCover(urls, ext);
  }

  /** The file name of every page, in page order. */
  function PageFiles(urls: seq<string>, ext: string -> string): (names: seq<string>)
    ensures |names| == |urls|
    ensures forall k :: 0 <= k < |urls| ==> names[k] == FileName(k, urls[k], ext)
  {
    seq(|urls|, k requires 0 <= k < |urls| => FileName(k, urls[k], ext))
  }

  /** The names written are exactly the pages' file names. */
  lemma PageFilesCover(urls: seq<string>, ext: string -> string)
    ensures forall name :: name in PageFiles(urls, ext) <==>
              exists k :: 0 <= k < |urls| && name == FileName(k, urls[k], ext)
  {
    var names := PageFiles(urls, ext);
    forall name ensures name in names <==> exists k :: 0 <= k < |urls| && name == FileName(k, urls[k], ext) {
      if name in names {
        var k :| 0 <= k < |names| && names[k] == name;
        assert name == FileName(k, urls[k], ext);
      }
    }
  }

  /** With fewer than ten thousand pages the names start with four digits that read back as
      the page index. */
  lemma {:induction false} FileNamePrefix(i: nat, url: string, ext: string -> string)
    requires i < 10000
    ensures var name := FileName(i, url, ext);
      |name| >= 4 && AllDigits(name[..4]) && Value(name[..4]) == i
  {
    var p := Pad4(i);
    assert FileName(i, url, ext)[..4] == p;
  }

  /** With fewer than ten thousand pages no two pages share a file, so every page's file holds
      that page, whatever extensions the URLs have. */
  lemma {:induction false} FileNamesDistinct(urls: seq<string>, ext: string -> string)
    requires |urls| <= 10000
    ensures forall i, j :: 0 <= i < j < |urls| ==> FileName(i, urls[i], ext) != FileName(j, urls[j], ext)
    ensures forall k :: 0 <= k < |urls| ==> LastWriter(urls, ext, k)
  {
    forall i, j | 0 <= i < j < |urls| ensures FileName(i, urls[i], ext) != FileName(j, urls[j], ext) {
      FileNamePrefix(i, urls[i], ext);
      FileNamePrefix(j, urls[j], ext);
    }
  }

  /** `os.path.splitext` gives an extension that is empty or starts with a dot, so the digits
      of a file name end where its extension begins. */
  lemma DigitsEndAtExtension(d: string, e: string)
    requires AllDigits(d)
    requires e == "" || e[0] == '.'
    ensures Span(d + e, 0, IsDigit) == |d| && (d + e)[..|d|] == d
  {
    var s := d + e;
    assert AllFrom(s, 0, |d|, IsDigit) by {
      forall k | 0 <= k < |d| ensures IsDigit(s[k]) {
        assert s[k] == d[k];
      }
    }
    assert |d| < |s| ==> s[|d|] == e[0];
    SpanUnique(s, 0, |d|, IsDigit);
  }

  /** With extensions as `os.path.splitext` gives them, no two pages share a file, however many
      pages there are: the leading digits of a name read back as its page index. */
  lemma {:induction false} ExtensionsKeepFilesApart(urls: seq<string>, ext: string -> string)
    requires forall u :: ext(u) == "" || ext(u)[0] == '.'
    ensures forall i, j :: 0 <= i < j < |urls| ==> FileName(i, urls[i], ext) != FileName(j, urls[j], ext)
    ensures forall k :: 0 <= k < |urls| ==> LastWriter(urls, ext, k)
  {
    forall i, j | 0 <= i < j < |urls| ensures FileName(i, urls[i], ext) != FileName(j, urls[j], ext) {
      var a, b := FileName(i, urls[i], ext), FileName(j, urls[j], ext);
      DigitsEndAtExtension(Pad4(i), ext(urls[i]));
      DigitsEndAtExtension(Pad4(j), ext(urls[j]));
      assert Value(a[..Span(a, 0, IsDigit)]) == i;
      assert Value(b[..Span(b, 0, IsDigit)]) == j;
    }
  }

  /** With fewer than ten thousand pages, sorting the file names as strings puts the pages back
      in download order: name `i` sorts before name `j` exactly when `i < j`. */
  lemma {:induction false} FileNamesSortInPageOrder(urls: seq<string>, ext: string -> string)
    requires |urls| <= 10000
    ensures forall i, j :: 0 <= i < |urls| && 0 <= j < |urls| ==>
              (LexLess(FileName(i, urls[i], ext), FileName(j, urls[j], ext)) <==> i < j)
  {
    forall i, j | 0 <= i < |urls| && 0 <= j < |urls|
      ensures LexLess(FileName(i, urls[i], ext), FileName(j, urls[j], ext)) <==> i < j
    {
      if i < j {
        PadOrder(i, j, ext(urls[i]), ext(urls[j]));
      } else if j < i {
        PadOrder(j, i, ext(urls[j]), ext(urls[i]));
        LexLessAsymmetric(FileName(j, urls[j], ext), FileName(i, urls[i], ext));
      } else {
        LexLessIrreflexive(FileName(i, urls[i], ext));
      }
    }
  }

  lemma PadOrder(i: nat, j: nat, x: string, y: string)
    requires i < j < 10000
    ensures LexLess(Pad4(i) + x, Pad4(j) + y)
  {
    ValueOrderIsLexOrder(Pad4(i), Pad4(j));
    LexLessAppend(Pad4(i), Pad4(j), x, y);
  }

  /** The bound is tight: page 10000 is named `10000…`, which sorts before page 9999's `9999…`. */
  lemma OrderBreaksAtTenThousand(x: string, y: string)
    ensures LexLess(Pad4(10000) + x, Pad4(9999) + y)
  {
    var a, b := Pad4(10000), Pad4(9999);
    assert Decimal(10000) == "10000";
    assert Decimal(9999) == "9999";
    assert (a + x)[0] == '1' && (b + y)[0] == '9';
  }
}

=== FILE: numerals.dfy ===
/** Decimal text of natural numbers: Python's `str(n)`, `int(digits)` and `f"{n:04d}"`. */
module Numerals {
  import opened Text

  /** Every character of `s` is a decimal digit. */
  ghost predicate AllDigits(s: string) {
    forall k :: 0 <= k < |s| ==> IsDigit(s[k])
  }

  function DigitChar(d: nat): (c: char)
    requires d < 10
    ensures IsDigit(c)
  {
    ('0' as int + d) as char
  }

  function DigitValue(c: char): (d: nat)
    requires IsDigit(c)
    ensures d < 10
  {
    c as int - '0' as int
  }

  /** Python's `int(s)` on a string of decimal digits; leading zeros are allowed. A number
      read from `m` digits is below 10^m. */
  function Value(s: string): (r: nat)
    requires AllDigits(s)
    ensures r < Pow10(|s|)
  {
    if |s| == 0 then 0
    else
      var high := Value(s[..|s| - 1]);
      assert high * 10 <= (Pow10(|s| - 1) - 1) * 10;
      high * 10 + DigitValue(s[|s| - 1])
  }

  ghost function Pow10(m: nat): (p: nat)
    ensures p >= 1
  {
    if m == 0 then 1 else 10 * Pow10(m - 1)
  }

  /** Python's `str(n)` for a non-negative `n`: the shortest decimal text of `n`. */
  function Decimal(n: nat): (r: string)
    ensures |r| > 0 && AllDigits(r)
    ensures Value(r) == n
    ensures r[0] == '0' <==> n == 0
    decreases n
  {
    if n < 10 then [DigitChar(n)]
    else
      var r := Decimal(n / 10) + [DigitChar(n % 10)];
      assert r[..|r| - 1] == Decimal(n / 10);
      r
  }

  /** `k` zero characters. */
  function Zeros(k: nat): (r: string)
    ensures |r| == k && AllDigits(r)
  {
    seq(k, _ => '0')
  }

  /** Python's `f"{n:04d}"` for a non-negative `n`: its decimal text, left-padded with zeros to
      four characters; a number of five or more digits is written out in full. */
  function Pad4(n: nat): (r: string)
    ensures AllDigits(r) && Value(r) == n
    ensures |r| >= 4
    ensures |r| == 4 <==> n < 10000
    ensures |r| > 4 ==> r[0] != '0'
  {
    var d := Decimal(n);
    var k := if |d| < 4 then 4 - |d| else 0;
    LeadingZeros(k, d);
    assert Pow10(4) == 10000;
    DecimalShort(n, 4);
    assert k == 0 ==> Zeros(k) + d == d;
    Zeros(k) + d
  }

  /** Zeros in front of a digit string do not change its value. */
  lemma {:induction false} LeadingZeros(k: nat, s: string)
    requires AllDigits(s)
    ensures AllDigits(Zeros(k) + s) && Value(Zeros(k) + s) == Value(s)
    decreases |s|
  {
    var z := Zeros(k) + s;
    assert AllDigits(z) by {
      forall i | 0 <= i < |z| ensures IsDigit(z[i]) {
        if i < k { assert z[i] == '0'; } else { assert z[i] == s[i - k]; }
      }
    }
    if |s| == 0 {
      ZerosValue(k);
      assert z == Zeros(k);
    } else {
      var s' := s[..|s| - 1];
      LeadingZeros(k, s');
      assert z[..|z| - 1] == Zeros(k) + s';
    }
  }

  lemma {:induction false} ZerosValue(k: nat)
    ensures Value(Zeros(k)) == 0
    decreases k
  {
    if k > 0 {
      ZerosValue(k - 1);
      assert Zeros(k)[..k - 1] == Zeros(k - 1);
    }
  }

  /** A number below 10^m is written with at most `m` digits. */
  lemma {:induction false} DecimalShort(n: nat, m: nat)
    requires m >= 1
    ensures n < Pow10(m) ==> |Decimal(n)| <= m
    decreases n
  {
    if n >= 10 && n < Pow10(m) {
      assert m >= 2;
      DecimalShort(n / 10, m - 1);
    }
  }

  /** Digit strings of one length with one value are the same string. */
  lemma {:induction false} ValueInjective(a: string, b: string)
    requires AllDigits(a) && AllDigits(b) && |a| == |b|
    requires Value(a) == Value(b)
    ensures a == b
    decreases |a|
  {
    if |a| > 0 {
      var a', b' := a[..|a| - 1], b[..|b| - 1];
      ValueInjective(a', b');
      assert a == a' + [a[|a| - 1]] && b == b' + [b[|b| - 1]];
    }
  }

  /** On digit strings of one length, numeric order is string order. */
  lemma {:induction false} ValueOrderIsLexOrder(a: string, b: string)
    requires AllDigits(a) && AllDigits(b) && |a| == |b|
    requires Value(a) < Value(b)
    ensures LexLess(a, b)
    decreases |a|
  {
    var n := |a|;
    var a', b' := a[..n - 1], b[..n - 1];
    assert a == a' + [a[n - 1]] && b == b' + [b[n - 1]];
    if Value(a') < Value(b') {
      ValueOrderIsLexOrder(a', b');
      LexLessAppend(a', b', [a[n - 1]], [b[n - 1]]);
    } else if Value(a') == Value(b') {
      ValueInjective(a', b');
      LexLessLast(a', a[n - 1], b[n - 1]);
    }
  }
}

=== FILE: pages.dfy ===
/** Page discovery: the filename records of the decoded configuration, the ordered list of
    page-image URLs built from them (`get_page_file_names`, `prepare_download`). */
module Pages {
  import opened Wrappers
  import Text
  import opened Numerals

  /** A value as `json.loads` returns it: a dict keeps its members in insertion order;
      `World.decode` is taken to give distinct keys. */
  datatype Json =
    | Null
    | Bool(b: bool)
    | Num(literal: string)
    | Str(s: string)
    | Arr(items: seq<Json>)
    | Obj(members: seq<(string, Json)>)

  const PagesKey: string := "fliphtml5_pages"
  const NameKey: string := "n"
  const LargeDir: string := "files/large/"
  const FallbackExt: string := ".jpg"

  /** The first member of `members` whose key is `key`. */
  function MemberIn(members: seq<(string, Json)>, key: string): (r: Option<Json>)
    ensures r.Some? ==> exists k :: 0 <= k < |members| && members[k] == (key, r.value)
    ensures r.None? <==> forall k :: 0 <= k < |members| ==> members[k].0 != key
  {
    if |members| == 0 then None
    else if members[0].0 == key then Some(members[0].1)
    else
      var r := MemberIn(members[1..], key);
      assert forall k :: 0 <= k < |members| - 1 ==> members[1..][k] == members[k + 1];
      assert r.None? ==> forall k :: 0 <= k < |members| ==> members[k].0 != key by {
        if r.None? {
          forall k | 0 < k < |members| ensures members[k].0 != key {
            assert members[k] == members[1..][k - 1];
          }
        }
      }
      r
  }

  /** Python's `v[key]` with a string key: only a dict holding the key answers; a list, a
      string or a scalar raises `TypeError`, a dict without the key raises `KeyError`. */
  function Member(v: Json, key: string): (r: Option<Json>)
    ensures r.Some? <==> v.Obj? && exists k :: 0 <= k < |v.members| && v.members[k].0 == key
    ensures r.Some? ==> exists k :: 0 <= k < |v.members| && v.members[k] == (key, r.value)
  {
    if v.Obj? then MemberIn(v.members, key) else None
  }

  /** Python's `v[0]`: the first item of a non-empty list or the first character of a non-empty
      string; an empty one raises `IndexError`, a dict raises `KeyError` (its keys are strings),
      a scalar raises `TypeError`. */
  function First(v: Json): (r: Option<Json>)
    ensures r.Some? ==> ((v.Arr? && |v.items| > 0 && r.value == v.items[0])
                         || (v.Str? && |v.s| > 0 && r.value == Str([v.s[0]])))
    ensures r.None? ==> !(v.Arr? && |v.items| > 0) && !(v.Str? && |v.s| > 0)
  {
    match v
    case Arr(items) => if |items| > 0 then Some(items[0]) else None
    case Str(s) => if |s| > 0 then Some(Str([s[0]])) else None
    case _ => None
  }

  /** Python's `for x in v`: the items of a list, the keys of a dict, the characters of a
      string; a scalar is not iterable and raises `TypeError`. */
  function Elements(v: Json): (r: Option<seq<Json>>)
    ensures r.Some? <==> v.Arr? || v.Obj? || v.Str?
    ensures v.Arr? ==> r == Some(v.items)
    ensures v.Obj? ==> r.Some? && |r.value| == |v.members|
                       && forall k :: 0 <= k < |v.members| ==> r.value[k] == Str(v.members[k].0)
    ensures v.Str? ==> r.Some? && |r.value| == |v.s|
                       && forall k :: 0 <= k < |v.s| ==> r.value[k] == Str([v.s[k]])
  {
    match v
    case Arr(items) => Some(items)
    case Obj(members) => Some(seq(|members|, k requires 0 <= k < |members| => Str(members[k].0)))
    case Str(s) => Some(seq(|s|, k requires 0 <= k < |s| => Str([s[k]])))
    case _ => None
  }

  /** `page['n'][0]` for one page record, `None` where it raises. */
  function PageName(page: Json): (r: Option<Json>)
    ensures r.Some? ==> page.Obj?
    ensures page.Str? ==> r.None?
    ensures r.Some? ==>
              exists n :: Member(page, NameKey) == Some(n)
                && ((n.Arr? && |n.items| > 0 && r.value == n.items[0])
                    || (n.Str? && |n.s| > 0 && r.value == Str([n.s[0]])))
    ensures r.None? ==> forall n :: Member(page, NameKey) == Some(n) ==>
              !(n.Arr? && |n.items| > 0) && !(n.Str? && |n.s| > 0)
  {
    match Member(page, NameKey)
    case None => None
    case Some(n) => First(n)
  }

  /** The collecting loop of `get_page_file_names`: the name of each record in order, up to the
      first record that raises; the exception is swallowed and the names so far are kept. */
  function CollectNames(pages: seq<Json>): (names: seq<Json>)
    ensures |names| <= |pages|
    ensures forall k :: 0 <= k < |names| ==> PageName(pages[k]) == Some(names[k])
    ensures |names| < |pages| ==> PageName(pages[|names|]).None?
  {
    if |pages| == 0 then []
    else match PageName(pages[0])
      case None => []
      case Some(n) =>
        var rest := CollectNames(pages[1..]);
        var names := [n] + rest;
        forall k | 0 < k < |names| ensures PageName(pages[k]) == Some(names[k]) {
          assert pages[k] == pages[1..][k - 1] && names[k] == rest[k - 1];
        }
        assert |names| < |pages| ==> pages[|names|] == pages[1..][|rest|];
        names
  }

  /** `get_page_file_names` on the outcome of decoding the configuration text (`None` where
      `json.loads` raised): names come only from a dict whose `fliphtml5_pages` member is a
      list; a missing member, or one that is a dict, a string or a scalar, gives no names. */
  function FileNames(decoded: Option<Json>): (names: seq<Json>)
    ensures decoded.None? ==> names == []
    ensures decoded.Some? && Member(decoded.value, PagesKey).Some? && Member(decoded.value, PagesKey).value.Arr? ==>
              var pages := Member(decoded.value, PagesKey).value.items;
              && |names| <= |pages|
              && (forall k :: 0 <= k < |names| ==> PageName(pages[k]) == Some(names[k]))
              && (|names| < |pages| ==> PageName(pages[|names|]).None?)
    ensures |names| > 0 ==> decoded.Some? && Member(decoded.value, PagesKey).Some?
                            && Member(decoded.value, PagesKey).value.Arr?
    ensures |names| > 0 ==> var pages := Member(decoded.value, PagesKey).value.items;
                            |names| <= |pages|
                            && (forall k :: 0 <= k < |names| ==> PageName(pages[k]) == Some(names[k]))
                            && (|names| < |pages| ==> PageName(pages[|names|]).None?)
  {
    match decoded
    case None => []
    case Some(config) =>
      match Member(config, PagesKey)
      case None => []
      case Some(pages) =>
        match Elements(pages)
        case None => []
        case Some(records) =>
          var names := CollectNames(records);
          assert |records| > 0 && !pages.Arr? ==> records[0].Str?;
          names
  }

  /** The text an f-string substitutes for a decoded value: a string is itself; any other
      value is rendered by Python's `str()`, which `show` stands for. */
  function Render(v: Json, show: Json -> string): string {
    if v.Str? then v.s else show(v)
  }

  /** The file part of a fallback page path reads back as page number `n`: decimal digits
      without a leading zero, then `.jpg`. */
  ghost predicate NumberedFile(f: string, n: nat) {
    && |f| > |FallbackExt|
    && f[|f| - |FallbackExt|..] == FallbackExt
    && var digits := f[..|f| - |FallbackExt|];
    && AllDigits(digits)
    && Value(digits) == n
    && digits[0] != '0'
  }

  /** The fallback file of page `n` reads back as `n`. */
  lemma NumberedFallback(n: nat)
    requires n >= 1
    ensures NumberedFile(Decimal(n) + FallbackExt, n)
  {
    var d := Decimal(n);
    assert (d + FallbackExt)[..|d|] == d;
    assert (d + FallbackExt)[|d|..] == FallbackExt;
  }

  /** The page paths joined onto the book URL: the extracted names when there are any, and the
      page count is then ignored; otherwise `1.jpg` to `count.jpg`. */
  function PagePaths(names: seq<Json>, count: nat, show: Json -> string): (paths: seq<string>)
    ensures |paths| == if |names| > 0 then |names| else count
    ensures forall k :: 0 <= k < |paths| ==> |paths[k]| >= |LargeDir| && paths[k][..|LargeDir|] == LargeDir
    ensures |names| > 0 ==> forall k :: 0 <= k < |paths| ==> paths[k][|LargeDir|..] == Render(names[k], show)
    ensures |names| == 0 ==> forall k :: 0 <= k < |paths| ==> NumberedFile(paths[k][|LargeDir|..], k + 1)
  {
    if |names| > 0 then
      var paths := seq(|names|, k requires 0 <= k < |names| => LargeDir + Render(names[k], show));
      assert forall k :: 0 <= k < |paths| ==>
               paths[k][..|LargeDir|] == LargeDir && paths[k][|LargeDir|..] == Render(names[k], show) by {
        forall k | 0 <= k < |paths|
          ensures paths[k][..|LargeDir|] == LargeDir && paths[k][|LargeDir|..] == Render(names[k], show)
        {
          Text.ConcatParts(LargeDir, Render(names[k], show));
        }
      }
      paths
    else
      var paths := seq(count, k requires 0 <= k < count => LargeDir + (Decimal(k + 1) + FallbackExt));
      assert forall k :: 0 <= k < count ==>
               paths[k][..|LargeDir|] == LargeDir && NumberedFile(paths[k][|LargeDir|..], k + 1) by {
        forall k | 0 <= k < count
          ensures paths[k][..|LargeDir|] == LargeDir && NumberedFile(paths[k][|LargeDir|..], k + 1)
        {
          Text.ConcatParts(LargeDir, Decimal(k + 1) + FallbackExt);
          NumberedFallback(k + 1);
        }
      }
      paths
  }

  /** The paths of extracted names as the f-string spells them. */
  lemma NamedPathsSpelled(names: seq<Json>, count: nat, show: Json -> string)
    requires |names| > 0
    ensures var paths := PagePaths(names, count, show);
      |paths| == |names| && forall k :: 0 <= k < |names| ==> paths[k] == LargeDir + Render(names[k], show)
  {
  }

  /** The synthesised paths as the f-string spells them. */
  lemma FallbackPathsSpelled(count: nat, show: Json -> string)
    ensures var paths := PagePaths([], count, show);
      |paths| == count && forall k :: 0 <= k < count ==> paths[k] == LargeDir + Decimal(k + 1) + FallbackExt
  {
  }

  /** Synthesised page paths are pairwise different: each reads back as its own page number. */
  lemma {:induction false} FallbackPathsDistinct(count: nat, show: Json -> string)
    ensures var paths := PagePaths([], count, show);
      forall i, j :: 0 <= i < j < |paths| ==> paths[i] != paths[j]
  {
  }

  /** When names were extracted the page count plays no part in the paths. */
  lemma {:induction false} NamesOverrideCount(names: seq<Json>, c1: nat, c2: nat, show: Json -> string)
    requires |names| > 0
    ensures PagePaths(names, c1, show) == PagePaths(names, c2, show)
  {
    var p1, p2 := PagePaths(names, c1, show), PagePaths(names, c2, show);
    assert |p1| == |p2|;
    forall k | 0 <= k < |p1| ensures p1[k] == p2[k] {
      assert p1[k] == p1[k][..|LargeDir|] + p1[k][|LargeDir|..];
      assert p2[k] == p2[k][..|LargeDir|] + p2[k][|LargeDir|..];
    }
  }

  /** A record without an `n` member ends the collection: the names before it are kept and the
      records after it are never read. A string `n` contributes its first character. */
  lemma BrokenRecordEndsNames(a: string, c: string)
    requires |a| > 0
    ensures CollectNames([Obj([(NameKey, Str(a))]), Obj([]), Obj([(NameKey, Arr([Str(c)]))])])
              == [Str([a[0]])]
  {
    var pages := [Obj([(NameKey, Str(a))]), Obj([]), Obj([(NameKey, Arr([Str(c)]))])];
    assert PageName(pages[0]) == Some(Str([a[0]]));
    assert PageName(pages[1]) == None;
    assert pages[1..][1..] == [pages[2]];
  }
}


=== FILE: platform.dfy ===
/** Which hosting platform a book URL belongs to, and how a wrapper page's frames are followed. */
module Platform {
  import opened Wrappers
  import opened Text

  /** The two flip-book hosts the downloader knows. */
  datatype Host = AnyFlip | FlipHtml5

  /** What aborts platform resolution: an `<iframe>` without a `src` attribute yields `None`,
      and testing `'fliphtml5.com' in None` raises a `TypeError` that nothing catches. */
  datatype Fault = MissingFrameSource

  const FlipHtml5Domain: string := "fliphtml5.com"
  const AnyFlipDomain: string := "anyflip.com"

  /** A URL names one of the two hosts somewhere in its text. */
  ghost predicate Supported(url: string) {
    HasSubstring(url, FlipHtml5Domain) || HasSubstring(url, AnyFlipDomain)
  }

  /** `supported_url`: a plain substring test over the whole URL, not just its host part. */
  function SupportedUrl(url: string): (r: bool)
    ensures r <==> Supported(url)
  {
    Contains(url, FlipHtml5Domain) || Contains(url, AnyFlipDomain)
  }

  /** Frame `k` of the page has a `src` naming a supported host. */
  ghost predicate SupportedFrame(frames: seq<Option<string>>, k: int)
    requires 0 <= k < |frames|
  {
    frames[k].Some? && Supported(frames[k].value)
  }

  /** `w` is what the frame scan leaves as the working URL, starting from `url`: the last
      supported frame source in document order, or `url` itself when no frame is supported. */
  ghost predicate Adopted(url: string, frames: seq<Option<string>>, w: string) {
    || (exists k :: 0 <= k < |frames| && SupportedFrame(frames, k) && frames[k].value == w
         && forall j :: k < j < |frames| ==> !SupportedFrame(frames, j))
    || (w == url && forall j :: 0 <= j < |frames| ==> !SupportedFrame(frames, j))
  }

  /** The loop of `find_iframe`: every frame whose `src` is supported overwrites the working URL,
      in document order; a frame without `src` aborts the scan. `frames` holds each `<iframe>`'s
      `src` attribute, `None` where it is missing. */
  function FindIframe(url: string, frames: seq<Option<string>>): (r: Result<string, Fault>)
    ensures r.Failure? <==> exists k :: 0 <= k < |frames| && frames[k].None?
    ensures r.Success? ==> Adopted(url, frames, r.value)
    decreases |frames|
  {
    if |frames| == 0 then Success(url)
    else match frames[0]
      case None => Failure(MissingFrameSource)
      case Some(src) =>
        var next := if SupportedUrl(src) then src else url;
        var r := FindIframe(next, frames[1..]);
        assert forall k :: 0 <= k < |frames| - 1 ==> frames[1..][k] == frames[k + 1];
        assert r.Failure? <==> exists k :: 0 <= k < |frames| && frames[k].None? by {
          if r.Failure? {
            var k :| 0 <= k < |frames| - 1 && frames[1..][k].None?;
            assert frames[k + 1].None?;
          }
        }
        assert r.Success? ==> Adopted(url, frames, r.value) by {
          if r.Success? {
            AdoptedStep(url, frames, next, r.value);
          }
        }
        r
  }

  /** One step of the scan: adopting from the rest of the frames with the updated working URL
      is adopting from all of them. */
  lemma AdoptedStep(url: string, frames: seq<Option<string>>, next: string, w: string)
    requires |frames| > 0 && frames[0].Some?
    requires next == if SupportedUrl(frames[0].value) then frames[0].value else url
    requires Adopted(next, frames[1..], w)
    ensures Adopted(url, frames, w)
  {
    var rest := frames[1..];
    assert forall j :: 0 <= j < |rest| ==> (SupportedFrame(rest, j) <==> SupportedFrame(frames, j + 1));
    if exists k :: 0 <= k < |rest| && SupportedFrame(rest, k) && rest[k].value == w
         && forall j :: k < j < |rest| ==> !SupportedFrame(rest, j) {
      var k :| 0 <= k < |rest| && SupportedFrame(rest, k) && rest[k].value == w
         && forall j :: k < j < |rest| ==> !SupportedFrame(rest, j);
      assert SupportedFrame(frames, k + 1) && frames[k + 1].value == w;
      assert forall j :: k + 1 < j < |frames| ==> !SupportedFrame(frames, j) by {
        forall j | k + 1 < j < |frames| ensures !SupportedFrame(frames, j) {
          assert !SupportedFrame(rest, j - 1);
        }
      }
    } else if SupportedUrl(frames[0].value) {
      assert SupportedFrame(frames, 0) && frames[0].value == w;
      assert forall j :: 0 < j < |frames| ==> !SupportedFrame(frames, j) by {
        forall j | 0 < j < |frames| ensures !SupportedFrame(frames, j) {
          assert !SupportedFrame(rest, j - 1);
        }
      }
    } else {
      assert forall j :: 0 <= j < |frames| ==> !SupportedFrame(frames, j) by {
        forall j | 0 < j < |frames| ensures !SupportedFrame(frames, j) {
          assert !SupportedFrame(rest, j - 1);
        }
      }
    }
  }

  /** The first lines of `download_config_js`: a supported URL is kept as it is and its page is
      never scanned; any other URL goes through the frame scan of the page it points to. */
  function WorkingUrl(url: string, frames: seq<Option<string>>): (r: Result<string, Fault>)
    ensures Supported(url) ==> r == Success(url)
    ensures !Supported(url) ==> (r.Failure? <==> exists k :: 0 <= k < |frames| && frames[k].None?)
    ensures r.Success? ==> (Supported(r.value) <==> Supported(url) || exists k :: 0 <= k < |frames| && SupportedFrame(frames, k))
    ensures r.Success? && !Supported(r.value) ==> r.value == url
    ensures !Supported(url) && r.Success? ==> Adopted(url, frames, r.value)
  {
    if SupportedUrl(url) then Success(url) else FindIframe(url, frames)
  }

  /** The host dispatch of `download_config_js`, on the network location of the working URL:
      AnyFlip is checked first, so a location naming both hosts is AnyFlip; a location naming
      neither has no configuration resource. */
  function ConfigHost(netloc: string): (h: Option<Host>)
    ensures h == Some(AnyFlip) <==> HasSubstring(netloc, AnyFlipDomain)
    ensures h == Some(FlipHtml5) <==> !HasSubstring(netloc, AnyFlipDomain) && HasSubstring(netloc, FlipHtml5Domain)
    ensures h == None <==> !HasSubstring(netloc, AnyFlipDomain) && !HasSubstring(netloc, FlipHtml5Domain)
  {
    if Contains(netloc, AnyFlipDomain) then Some(AnyFlip)
    else if Contains(netloc, FlipHtml5Domain) then Some(FlipHtml5)
    else None
  }
}

=== FILE: text.dfy ===
/** Character classes, substring search, greedy character runs and string order,
    as Python's `in`, `re` and `<` see them on `str` values. */
module Text {

  /** Python's `\s` in a `str` pattern: exactly the characters for which `str.isspace()` holds. */
  predicate IsSpace(c: char) {
    var n := c as int;
    || 0x09 <= n <= 0x0D
    || 0x1C <= n <= 0x20
    || n == 0x85 || n == 0xA0 || n == 0x1680
    || 0x2000 <= n <= 0x200A
    || n == 0x2028 || n == 0x2029 || n == 0x202F || n == 0x205F || n == 0x3000
  }

  /** An ASCII decimal digit. */
  predicate IsDigit(c: char) {
    '0' <= c <= '9'
  }

  /** `sub` occurs in `s` at index `i`. */
  ghost predicate OccursAt(s: string, sub: string, i: int) {
    0 <= i && i + |sub| <= |s| && s[i..i + |sub|] == sub
  }

  /** `sub` occurs somewhere in `s`. */
  ghost predicate HasSubstring(s: string, sub: string) {
    exists i :: OccursAt(s, sub, i)
  }

  /** Searches for `sub` in `s` at index `from` or later. */
  function ContainsFrom(s: string, sub: string, from: nat): (r: bool)
    ensures r <==> exists i :: from <= i && OccursAt(s, sub, i)
    decreases |s| - from
  {
    if from + |sub| > |s| then false
    else if s[from..from + |sub|] == sub then assert OccursAt(s, sub, from); true
    else ContainsFrom(s, sub, from + 1)
  }

  /** Python's `sub in s` on strings. */
  function Contains(s: string, sub: string): (r: bool)
    ensures r <==> HasSubstring(s, sub)
  {
    ContainsFrom(s, sub, 0)
  }

  /** Every character of `s` in `[lo, hi)` satisfies `f`. */
  ghost predicate AllFrom(s: string, lo: nat, hi: nat, f: char -> bool)
    requires lo <= hi <= |s|
  {
    forall k :: lo <= k < hi ==> f(s[k])
  }

  /** The end of the longest run of characters satisfying `f` that starts at `p`:
      where a greedy `[...]*` that begins at `p` stops. */
  function Span(s: string, p: nat, f: char -> bool): (q: nat)
    requires p <= |s|
    ensures p <= q <= |s|
    ensures AllFrom(s, p, q, f)
    ensures q == |s| || !f(s[q])
    decreases |s| - p
  {
    if p < |s| && f(s[p]) then Span(s, p + 1, f) else p
  }

  /** A run that starts at `p`, holds only characters satisfying `f` and ends at a character
      that fails `f` (or at the end of `s`) is exactly the run `Span` finds. */
  lemma SpanUnique(s: string, p: nat, q: nat, f: char -> bool)
    requires p <= q <= |s|
    requires AllFrom(s, p, q, f)
    requires q == |s| || !f(s[q])
    ensures Span(s, p, f) == q
  {
  }

  /** Python's `a < b` on strings: lexicographic by code point, a proper prefix first. */
  predicate LexLess(a: string, b: string)
    decreases |a|
  {
    if |a| == 0 then |b| > 0
    else if |b| == 0 then false
    else a[0] < b[0] || (a[0] == b[0] && LexLess(a[1..], b[1..]))
  }

  lemma {:induction false} LexLessIrreflexive(a: string)
    ensures !LexLess(a, a)
    decreases |a|
  {
    if |a| > 0 {
      LexLessIrreflexive(a[1..]);
    }
  }

  lemma {:induction false} LexLessAsymmetric(a: string, b: string)
    requires LexLess(a, b)
    ensures !LexLess(b, a)
    decreases |a|
  {
    if |a| > 0 && |b| > 0 && a[0] == b[0] {
      LexLessAsymmetric(a[1..], b[1..]);
    }
  }

  /** Order between two strings of equal length survives appending anything to either. */
  lemma {:induction false} LexLessAppend(a: string, b: string, x: string, y: string)
    requires |a| == |b|
    requires LexLess(a, b)
    ensures LexLess(a + x, b + y)
    decreases |a|
  {
    assert (a + x)[0] == a[0] && (b + y)[0] == b[0];
    if a[0] == b[0] && LexLess(a[1..], b[1..]) {
      LexLessAppend(a[1..], b[1..], x, y);
      assert (a + x)[1..] == a[1..] + x;
      assert (b + y)[1..] == b[1..] + y;
    }
  }

  /** Two strings that share everything but a last character are ordered by that character. */
  lemma {:induction false} LexLessLast(p: string, x: char, y: char)
    requires x < y
    ensures LexLess(p + [x], p + [y])
    decreases |p|
  {
    if |p| > 0 {
      LexLessLast(p[1..], x, y);
      assert (p + [x])[1..] == p[1..] + [x];
      assert (p + [y])[1..] == p[1..] + [y];
    }
  }

  /** A substring of a substring of `a` is a substring of `a`. */
  lemma SubstringOfSubstring(a: string, b: string, c: string)
    requires HasSubstring(a, b) && HasSubstring(b, c)
    ensures HasSubstring(a, c)
  {
    var i :| OccursAt(a, b, i);
    var j :| OccursAt(b, c, j);
    assert a[i + j..i + j + |c|] == b[j..j + |c|] by {
      forall k | i + j <= k < i + j + |c| ensures a[k] == b[k - i] {
        assert a[k] == a[i..i + |b|][k - i];
      }
    }
    assert OccursAt(a, c, i + j);
  }

  /** The two halves of a concatenation are recovered by slicing at the seam. */
  lemma ConcatParts(a: string, b: string)
    ensures (a + b)[..|a|] == a && (a + b)[|a|..] == b
  {
  }
}

=== FILE: wrappers.dfy ===
/** Optional values, and the outcome of a step that either gives a value or aborts with an error. */
module Wrappers {

  /** A value that may be absent: Python's `None` or a present value. */
  datatype Option<+T> = None | Some(value: T)

  /** The outcome of a step that can raise: its value, or the error that aborts the run. */
  datatype Result<+T, +E> = Success(value: T) | Failure(error: E)
}
